=== FILE: README.md ===
# Bloom Alert dashboard logic, in Dafny

Bloom Alert is a browser map dashboard that estimates a local pollen risk from
the current weather at a clicked point. Most of its `script.js` is map, DOM and
network glue. This project models the deterministic decision logic inside it,
with randomness and time passed in as parameters:

- **Pollen index** (`Pollen`): `calculatePollenIndex`. It sums a clamped linear
  temperature score, a three-tier humidity score and a three-tier, non-monotone
  wind score, then adds a jitter `u` in [0, 1) and caps the result at 10.
  Arithmetic is over `real`.
- **Risk tiers and advice** (`Advice`): the prediction key chosen by the index
  (thresholds 4 and 7), and the five recommendation cards of the details
  panel. The outdoors, mask and windows cards use thresholds 4/7, 7 and 5. The
  UV card uses 3 and 8.
- **Weather codes** (`WeatherCodes`): the code-to-condition table with its
  `unknownCondition` fallback, and the condition-to-icon table.
- **Weather cache** (`WeatherCache`): the per-coordinate cache of
  `updateSidebar` as a `map<K, Entry<D>>` threaded through pure functions. It
  covers the hit test, the store after a fetch, the unchanged cache after a
  failed or aborted fetch, and the periodic sweep. Whether rendering the data
  completes is a parameter: the source stores fetched data before rendering
  it, so data that fails to render is cached and reported as an error. `CacheDuration` is
  600000 ms. Lookup time and completion time are separate parameters.
- **Translation** (`I18n`, over the string primitives of `Text`): `t(key,
  replacements)`. It looks up the current language's table, falls back to the
  key, and replaces the first occurrence of each `{name}` in order. It also
  keeps a memo keyed by language, key and replacements, which the language
  toggle clears.
- **Chat** (`Chat`): `getGeminiChatResponse`. It lower-cases the input and
  tests keyword groups in priority order: symptoms, protection, phenology,
  then temperature, wind and humidity. The last three are tested only once
  weather and location data exist. `triggerInitialGeminiPrediction` sets that
  data.

Main results:

- Over the reals, the index always lies in [2, 10), so the cap at 10 never
  applies.
- Tier selection is monotone.
- The outdoors card says "good" exactly when the prediction tier is low.
- A cache lookup hits exactly when an entry is younger than 10 minutes. Only a
  fetch whose responses decoded changes the cache, and only at its own key. An
  error view does not imply an unchanged cache: data stored but not renderable
  makes every hit within the window fail again, with no new fetch.
- The loop sweep equals the declarative "keep the unexpired entries". The
  sweep is idempotent and no lookup at the sweep time or later can observe it.
- An entry exactly 10 minutes old is neither served nor swept.
- Memoised translations equal uncached ones.
- `replace` consumes only the first placeholder occurrence.
- The chat matcher answers the first available topic in priority order.

The details panel labels the scale "Pollen Index (1-10)" (script.js:67) and
shows the value "/ 10" (script.js:219). Over the reals the computed index never
goes below 2, because every humidity and wind score is at least 1.

## Model

| member | source | states |
|---|---|---|
| Pollen.TemperatureScore | script.js:226 | score in [0, 3]; 0 at or below 10 degrees, 3 from 25 degrees, and (t - 10) / 5 in between |
| Pollen.HumidityScore | script.js:227 | score is 1, 2 or 3; 3 iff humidity < 40, 2 iff 40 <= humidity < 70, 1 iff humidity >= 70 |
| Pollen.WindScore | script.js:228 | score is 1, 2 or 3; 1 iff wind < 5, 3 iff 5 <= wind < 20, 2 iff wind >= 20 |
| Pollen.WeatherScore | script.js:226-229 | the three scores sum to a value in [2, 9] |
| Pollen.PollenIndex | script.js:225-231 | over the reals, for a jitter in [0, 1) the index lies in [2, 10), and the cap at 10 never applies (index minus jitter is the weather score) |
| Pollen.TemperatureScoreMonotone | script.js:226 | a warmer reading never lowers the temperature score |
| Pollen.HumidityScoreAntitone | script.js:227 | a more humid reading never raises the humidity score |
| Pollen.WindScoreNotMonotone | script.js:228 | a breeze outscores both calm air and strong wind |
| Pollen.ThresholdsAreStrict | script.js:26-33 | humidity 40 scores 2 and 70 scores 1; wind 5 scores 3 and 20 scores 2; temperature 10 scores 0 and 25 scores 3 |
| Pollen.PollenIndexIncreasesWithJitter | script.js:229 | for fixed weather a larger draw gives a strictly larger index |
| Pollen.PollenIndexReachesTwo | script.js:229-230 | the index attains 2, so the lower bound cannot be raised |
| Pollen.PollenIndexApproachesCap | script.js:229-230 | for every bound below 10 some draw in [0, 1) gives an index above it, so no upper bound below 10 holds |
| Advice.Tier | script.js:364-366 | tier is low iff index < 4 and high iff index >= 7 |
| Advice.PredictionKey | script.js:364-366 | the low, moderate or high prediction key is chosen exactly for the corresponding tier |
| Advice.TierMonotone | script.js:364-366 | a higher index never gives a lower tier |
| Advice.OutdoorCard | script.js:257 | the outdoors card says good, moderation or not recommended exactly in the low, moderate or high tier, with matching severity colour |
| Advice.MaskCard | script.js:258 | the mask card recommends a mask exactly in the high tier |
| Advice.WindowsCard | script.js:259 | windows stay closed iff index >= 5: always in the high tier, never in the low tier, red exactly when closed |
| Advice.UvCard | script.js:260 | the untranslated UV word is Low iff uv < 3, High iff 3 <= uv < 8, Extreme iff uv >= 8 |
| Advice.Recommendations | script.js:256-262 | five cards in display order (outdoors, mask, windows, UV, prevention); outdoors is good iff the prediction key is the low one and not recommended iff index >= 7; mask recommended iff index >= 7; windows closed iff index >= 5; UV Low iff uv < 3, High iff 3 <= uv < 8, Extreme iff uv >= 8 |
| Advice.CardsEscalateTogether | script.js:257-259 | a recommended mask implies closed windows and outdoors not recommended; closed windows imply outdoors is not good |
| Advice.CardsMonotone | script.js:257-259 | a higher index never makes the outdoors, mask or windows card less severe |
| Advice.JitterCanChangeTier | script.js:229 | the same weather at a whole-degree temperature (18) reads as low with draw 0 and moderate with draw 0.5 |
| Advice.EstimatorReachesEveryTier | script.js:364-366 | the estimator reaches the low, the moderate and the high tier at whole-degree temperatures |
| WeatherCodes.KnownCodesAreTheTable | script.js:138 | the table knows exactly the codes 0, 1, 2, 3, 45, 61, 63, 65, 95 |
| WeatherCodes.ConditionKey | script.js:138-140 | every produced key has an icon; the key is unknownCondition exactly for codes outside the table |
| WeatherCodes.IconOf | script.js:139-141 | the icon is fa-question-circle exactly for codes outside the table |
| WeatherCodes.GetWeatherInfo | script.js:137-142 | the label is the translation of the condition key and the icon is the fallback one exactly for unknown codes; the memo stays sound |
| WeatherCodes.SharedLabelsAndIcons | script.js:138-140 | codes 1 and 2 share a label; moderate and heavy rain share an icon |
| WeatherCache.Lookup | script.js:149-151 | a hit exactly when an entry exists and now < timestamp + 600000, returning that entry's data |
| WeatherCache.Store | script.js:180 | the key maps to (data, completion time); all other keys keep their entries and no key disappears |
| WeatherCache.Visit | script.js:144-189 | served from cache exactly on a hit, with the cache unchanged, rendered iff the data renders and otherwise an escaping error; on a miss decoded data is stored, then shown iff it renders and otherwise reported as the load error; a failed fetch shows the load error and an abort shows nothing, both leaving the cache unchanged; only decoded data changes the cache; other keys never change |
| WeatherCache.UnrenderableDataStaysCached | script.js:165-187 | data that fails to render is reported as the load error yet stored, and a hit on it within the window fails again without a fetch |
| WeatherCache.Sweep | script.js:52-59 | keeps exactly the entries not older than 600000 ms, each unchanged |
| WeatherCache.SweepEntries | script.js:54-58 | deleting expired entries one by one yields exactly the declarative sweep |
| WeatherCache.SweepIdempotent | script.js:52-59 | sweeping twice at the same time equals sweeping once |
| WeatherCache.SweepUnobservable | script.js:151 | a lookup at the sweep time or later answers the same with or without the sweep |
| WeatherCache.BoundaryAgeNeitherServedNorSwept | script.js:151 | an entry exactly 600000 ms old misses the hit test (line 151, strict <) and survives the sweep (line 55, strict >) |
| WeatherCache.OneFetchPerWindow | script.js:148-180 | after a fetch the key is served from cache without a fetch until 600000 ms after completion, and misses the cache from then on |
| WeatherCache.StaleEntryGoneAfterSweep | script.js:52-59 | an entry older than the window is absent after one sweep with no lookup in between |
| Text.IndexFrom | script.js:88 | the position of the first occurrence at or after a start position, or none when there is no such occurrence |
| Text.IndexOf | script.js:88 | the position of the first occurrence (no earlier position matches), or none when the pattern occurs nowhere |
| Text.LowerChar | script.js:317 | the result is never a capital; a capital moves 32 code points up to its small letter; any other character is kept |
| Text.Lower | script.js:317 | same length; no capital remains; capitals move 32 code points up and every other character is kept in place |
| Text.ReplaceFirst | script.js:88 | without an occurrence the text is unchanged; otherwise only the first occurrence is replaced, with prefix and suffix kept |
| Text.ReplaceFirstKeepsLaterOccurrence | script.js:88 | an occurrence after the first one survives the replacement, shifted by the length change |
| Text.ContainsIffOccurs | script.js:326 | `includes`, modelled by Text.Contains, holds exactly when the pattern occurs at some position |
| Text.LowerIdempotent | script.js:317 | lower-casing twice equals lower-casing once |
| I18n.Template | script.js:87 | the language's entry for the key when present and non-empty; the key itself when the language or the entry is missing or the entry is empty |
| I18n.Fill | script.js:88 | no replacements leave the text unchanged; a text without a brace is unchanged by any replacements; one replacement replaces the first occurrence of its placeholder |
| I18n.Translate | script.js:87-88 | the placeholders are filled into the language's non-empty entry, or into the key itself when the entry is missing or empty; a brace-free template is returned as it is |
| I18n.Initial | script.js:6 | the page starts in English with an empty memo |
| I18n.T | script.js:80-92 | a memo hit returns the memoised text and leaves the state unchanged; otherwise the text is memoised under (language, key, replacements); the result equals the uncached translation and the memo stays sound |
| I18n.Toggle | script.js:103-105 | the toggle switches language, keeps the tables and empties the memo |
| I18n.ToggleTwice | script.js:104 | two toggles restore the language |
| I18n.MemoSoundUnderAnyLanguage | script.js:81 | since the memo key records the language, the memo stays correct under any language change |
| I18n.TranslateAll | script.js:80-92 | any sequence of t calls from a sound memo returns exactly the uncached translations |
| I18n.FillAppend | script.js:88 | replacing with list a then list b equals replacing with a followed by b, so order matters only through this sequence |
| I18n.MissingKeyTranslatesToItself | script.js:87-88 | a brace-free key missing from the language's table translates to the key itself under any replacements (a key with placeholders still has them filled) |
| I18n.FillReplacesFirstOnly | script.js:88 | a placeholder present twice is still present after its replacement |
| Chat.Keywords | script.js:319-324 | every topic has a keyword list and no keyword is empty |
| Chat.Mentions | script.js:326 | a topic is mentioned iff one of its keywords occurs at some position of the input |
| Chat.MatchTopic | script.js:326-353 | symptoms win whenever mentioned; a chosen topic is mentioned; weather topics need data |
| Chat.FirstAvailableFrom | script.js:326-355 | reference: the position of an available (mentioned, with data when needed) topic with no available topic before it, or none when no topic from the start position on is available |
| Chat.FirstMentioned | script.js:326-355 | reference: the first available topic of the order (every earlier topic is unavailable), or none when no topic of the order is available |
| Chat.MatchTopicIsFirstInPriority | script.js:326-355 | the matcher equals the first available topic in the order symptoms, protection, phenology, temperature, wind, humidity |
| Chat.ChatReply | script.js:316-356 | the reply key is the key of the first available topic in priority order, chatDefault when there is none; temperature, wind and humidity replies only with weather and location data and carry city/temp/feels, wind and humidity replacements; other replies carry none |
| Chat.ChatReplyIgnoresCase | script.js:317 | the input and its lower-cased form get the same reply |
| Chat.ChatResponse | script.js:316-356 | the response text is the translation of the chosen reply; the memo stays sound |
| Chat.InitialPrediction | script.js:358-367 | the chat context becomes exactly this weather and this city; the message is the translation of the tier's prediction key with city and wind |
| Chat.WindReplyNeedsPrediction | script.js:336-348 | a wind question gets chatDefault before any prediction and the wind reply after one |

## Left out

- DOM updates, the details modal, the chat widget display and the hourly
  forecast table. These are display side effects.
- `fetch`, `Promise.all` and JSON decoding. A lookup's network part is only
  its outcome: fetched data, a failure, or an abort.
- The `AbortController` that cancels a superseded lookup (script.js:156-160).
  This is concurrency plumbing. The cache-hit path (script.js:151-153) does not
  cancel a pending miss, so a pending lookup can still render after a newer
  cached one. This is not modelled.
- `debounce`, `setTimeout` and `setInterval` scheduling. The sweep is an
  operation that takes `now`.
- Cache-key construction with `toFixed(4)`. The key type is abstract, so the
  rounding of nearby coordinates to one key is not modelled.
- Number formatting (`Math.round`, `toFixed(1)`) and locale time strings. Chat
  and prediction replacements take already formatted strings.
- `Pollen.PollenIndex` takes any real temperature. The caller's rounding of
  temperature to an integer (script.js:203, 218) is not modelled; integer
  temperatures are a special case.
- `Math.random`. It is the parameter `u`, with the range [0, 1) that
  `Math.random` promises.
- Pollen.PollenIndex: computed over the reals, not IEEE-754 doubles. In
  doubles, 3 + 3 + 3 + u rounds to exactly 10 for u close enough to 1, so the
  program can return 10. The cap still leaves the value unchanged. Comparisons
  at the tier thresholds 4, 5 and 7 can also differ by rounding.
- Text.LowerChar: lower-cases only ASCII capitals and the Latin-1 capitals
  U+00C0..U+00DE. That range covers every keyword. `toLowerCase` on the rest of
  Unicode is not modelled.
- `$` patterns in `String.prototype.replace` replacement values. Values are
  inserted literally.
- The contents of the translation tables. They are an opaque
  `map<string, map<string, string>>`.
- I18n.Replacements: a sequence of name/value pairs. It allows a name twice,
  which an object literal does not, and it keeps the caller's order, while
  `Object.keys` lists integer-like names first. Every call site uses distinct,
  non-numeric names, so no call is affected.
- The memo key. The source serialises language, key and replacements into one
  string; the model uses a datatype and treats the serialisation as injective.
- The map, tile layers, routing, geocoding and city search (script.js:382-497).
  These are foreign library calls and float geometry.
- The blank-input check of the chat form (script.js:376). It uses
  `String.prototype.trim` whitespace rules and is not modelled.

=== FILE: advice.dfy ===
/** What the dashboard derives from a pollen index: the risk tier that picks
    the prediction text, and the recommendation cards of the details panel
    (outdoors, mask, windows, UV, prevention). */
module Advice {
  import Pollen

  datatype RiskTier = Low | Moderate | High

  function Rank(t: RiskTier): nat
  {
    match t
    case Low => 0
    case Moderate => 1
    case High => 2
  }

  /** Index below 4 is low, below 7 moderate, otherwise high. */
  function Tier(index: real): (t: RiskTier)
    ensures t == Low <==> index < 4.0
    ensures t == High <==> index >= 7.0
  {
    if index < 4.0 then Low
    else if index < 7.0 then Moderate
    else High
  }

  /** The translation key of the initial prediction message. */
  function PredictionKey(index: real): (key: string)
    ensures key == "predictionDynamicLow" <==> Tier(index) == Low
    ensures key == "predictionDynamicMod" <==> Tier(index) == Moderate
    ensures key == "predictionDynamicHigh" <==> Tier(index) == High
  {
    if index < 4.0 then "predictionDynamicLow"
    else if index < 7.0 then "predictionDynamicMod"
    else "predictionDynamicHigh"
  }

  /** A higher index never gives a lower tier. */
  lemma TierMonotone(a: real, b: real)
    requires a <= b
    ensures Rank(Tier(a)) <= Rank(Tier(b))
  {
  }

  datatype Color = Green | Orange | Red

  function Severity(c: Color): nat
  {
    match c
    case Green => 0
    case Orange => 1
    case Red => 2
  }

  /** A card value is either a translation key or a fixed English word
      (the UV card does not translate its value). */
  datatype CardValue = Translated(key: string) | Literal(text: string)

  /** One recommendation card; `title` is a translation key. */
  datatype Card = Card(icon: string, color: Color, title: string, value: CardValue)

  function OutdoorCard(index: real): (c: Card)
    ensures c.title == "outdoor"
    ensures c.value == Translated("good") <==> Tier(index) == Low
    ensures c.value == Translated("moderation") <==> Tier(index) == Moderate
    ensures c.value == Translated("notRecommended") <==> Tier(index) == High
    ensures Severity(c.color) == Rank(Tier(index))
  {
    if index < 4.0 then Card("fa-running", Green, "outdoor", Translated("good"))
    else if index < 7.0 then Card("fa-walking", Orange, "outdoor", Translated("moderation"))
    else Card("fa-house-user", Red, "outdoor", Translated("notRecommended"))
  }

  function MaskCard(index: real): (c: Card)
    ensures c.title == "maskUse"
    ensures c.value == Translated("recommended") <==> Tier(index) == High
    ensures c.value == Translated("optional") <==> Tier(index) != High
    ensures c.color == Red <==> Tier(index) == High
  {
    if index < 7.0 then Card("fa-head-side-mask", Green, "maskUse", Translated("optional"))
    else Card("fa-head-side-mask", Red, "maskUse", Translated("recommended"))
  }

  /** Windows use their own threshold 5, inside the moderate tier. */
  function WindowsCard(index: real): (c: Card)
    ensures c.title == "windows"
    ensures c.value == Translated("keepClosed") <==> index >= 5.0
    ensures c.value == Translated("canOpen") <==> index < 5.0
    ensures Tier(index) == Low ==> c.value == Translated("canOpen")
    ensures Tier(index) == High ==> c.value == Translated("keepClosed")
    ensures c.color == Red <==> c.value == Translated("keepClosed")
  {
    if index < 5.0 then Card("fa-person-shelter", Green, "windows", Translated("canOpen"))
    else Card("fa-person-shelter", Red, "windows", Translated("keepClosed"))
  }

  /** UV below 3 is low, below 8 high, otherwise extreme. */
  function UvCard(uv: real): (c: Card)
    ensures c.title == "uvIndex" && c.icon == "fa-sun"
    ensures c.value == Literal("Low") <==> uv < 3.0
    ensures c.value == Literal("Extreme") <==> uv >= 8.0
    ensures c.value == Literal("High") <==> 3.0 <= uv < 8.0
  {
    if uv < 3.0 then Card("fa-sun", Green, "uvIndex", Literal("Low"))
    else if uv < 8.0 then Card("fa-sun", Orange, "uvIndex", Literal("High"))
    else Card("fa-sun", Red, "uvIndex", Literal("Extreme"))
  }

  const PreventionCard: Card := Card("fa-shower", Green, "prevention", Translated("showerAdvice"))

  /** The five cards of the details panel, in display order. */
  function Recommendations(index: real, uv: real): (cards: seq<Card>)
    ensures |cards| == 5
    ensures cards[0].title == "outdoor" && cards[1].title == "maskUse" && cards[2].title == "windows"
    ensures cards[3].title == "uvIndex" && cards[4] == PreventionCard
    ensures cards[0].value == Translated("good") <==> PredictionKey(index) == "predictionDynamicLow"
    ensures cards[0].value == Translated("notRecommended") <==> index >= 7.0
    ensures cards[1].value == Translated("recommended") <==> index >= 7.0
    ensures cards[1].value == Translated("optional") <==> index < 7.0
    ensures cards[2].value == Translated("keepClosed") <==> index >= 5.0
    ensures cards[2].value == Translated("canOpen") <==> index < 5.0
    ensures cards[3].value == Literal("Low") <==> uv < 3.0
    ensures cards[3].value == Literal("High") <==> 3.0 <= uv < 8.0
    ensures cards[3].value == Literal("Extreme") <==> uv >= 8.0
  {
    [OutdoorCard(index), MaskCard(index), WindowsCard(index), UvCard(uv), PreventionCard]
  }

  /** The pollen cards escalate together: a recommended mask means closed
      windows, and closed windows mean outdoors is not "good". */
  lemma CardsEscalateTogether(index: real, uv: real)
    ensures var cards := Recommendations(index, uv);
      && (cards[1].value == Translated("recommended") ==> cards[2].value == Translated("keepClosed"))
      && (cards[2].value == Translated("keepClosed") ==> cards[0].value != Translated("good"))
      && (cards[1].value == Translated("recommended") ==> cards[0].value == Translated("notRecommended"))
  {
  }

  /** A higher index never makes any of the three pollen cards less severe. */
  lemma CardsMonotone(a: real, b: real, uv: real)
    requires a <= b
    ensures forall i :: 0 <= i < 3 ==>
      Severity(Recommendations(a, uv)[i].color) <= Severity(Recommendations(b, uv)[i].color)
  {
  }

  /** The jitter alone can move an index across a tier boundary: the same
      weather reads as low with one draw and moderate with another. */
  lemma JitterCanChangeTier()
    ensures Tier(Pollen.PollenIndex(18.0, Pollen.HumidityMed, 0.0, 0.0)) == Low
    ensures Tier(Pollen.PollenIndex(18.0, Pollen.HumidityMed, 0.0, 0.5)) == Moderate
  {
  }

  /** The estimator reaches every tier at whole-degree temperatures: its
      lowest index, 2, is low; a mild humid calm reading with a middling draw
      is moderate; a warm, dry, breezy reading is high even without jitter. */
  lemma EstimatorReachesEveryTier()
    ensures Tier(Pollen.PollenIndex(0.0, Pollen.HumidityMed, 0.0, 0.0)) == Low
    ensures Tier(Pollen.PollenIndex(18.0, Pollen.HumidityMed, 0.0, 0.5)) == Moderate
    ensures Tier(Pollen.PollenIndex(25.0, 0.0, Pollen.WindLow, 0.0)) == High
  {
  }
}

=== FILE: chat.dfy ===
/** The scripted chat assistant: the initial prediction message chosen by
    the risk tier, and the keyword matcher `getGeminiChatResponse`, which
    tests keyword groups in a fixed priority order and answers
    weather-dependent questions only once weather and location are known. */
module Chat {
  import opened Wrappers
  import opened Text
  import opened I18n
  import Advice

  /** Current conditions as the chat replies quote them, already formatted
      (rounded temperatures, wind with one decimal, humidity). */
  datatype WeatherFacts = WeatherFacts(temp: string, feels: string, wind: string, humidity: string)

  /** `currentWeatherData` and `currentLocationData` (only the city name is read). */
  datatype Context = Context(weather: Option<WeatherFacts>, city: Option<string>)

  const NoContext: Context := Context(None, None)

  predicate HasData(ctx: Context)
  {
    ctx.weather.Some? && ctx.city.Some?
  }

  datatype Topic = Symptoms | Protection | Phenology | Temperature | Wind | Humidity

  /** The keyword list of a topic; no keyword is empty, so an empty input
      mentions nothing. */
  function Keywords(topic: Topic): (kws: seq<string>)
    ensures |kws| > 0
    ensures forall i :: 0 <= i < |kws| ==> |kws[i]| > 0
  {
    match topic
    case Symptoms => ["sintomas", "symptoms", "alergia", "allergy", "espirro", "sneeze", "comichão", "itchy", "olhos", "eyes"]
    case Protection => ["proteger", "evitar", "prevenção", "protect", "avoid", "prevention", "cuidado", "care"]
    case Phenology => ["fenologia", "phenology", "estudo", "study", "ciência", "science"]
    case Temperature => ["temperatura", "temperature", "clima", "weather", "quente", "frio", "hot", "cold"]
    case Wind => ["vento", "wind"]
    case Humidity => ["humidade", "umidade", "humidity"]
  }

  /** Some keyword of the topic occurs in the (lower-cased) input. */
  predicate Mentions(input: string, topic: Topic)
    ensures Mentions(input, topic) <==>
      exists i, p :: 0 <= i < |Keywords(topic)| && OccursAt(input, Keywords(topic)[i], p)
  {
    exists i :: 0 <= i < |Keywords(topic)| && Contains(input, Keywords(topic)[i])
  }

  /** Topics that need weather and location data. */
  predicate NeedsData(topic: Topic)
  {
    topic == Temperature || topic == Wind || topic == Humidity
  }

  /** Which topics an input mentions, as a predicate on topics. */
  function SaidIn(input: string): Topic -> bool
  {
    topic => Mentions(input, topic)
  }

  /** The topic the matcher answers, `None` for the default reply, tested in
      the order the source writes its `if` statements; `said` tells which
      topics the input mentions. */
  function MatchTopic(said: Topic -> bool, hasData: bool): (r: Option<Topic>)
    ensures r.Some? && NeedsData(r.value) ==> hasData
    ensures r.Some? ==> said(r.value)
    ensures said(Symptoms) ==> r == Some(Symptoms)
  {
    if said(Symptoms) then Some(Symptoms)
    else if said(Protection) then Some(Protection)
    else if said(Phenology) then Some(Phenology)
    else if hasData then
      if said(Temperature) then Some(Temperature)
      else if said(Wind) then Some(Wind)
      else if said(Humidity) then Some(Humidity)
      else None
    else None
  }

  /** The priority order of the topics. */
  const Priority: seq<Topic> := [Symptoms, Protection, Phenology, Temperature, Wind, Humidity]

  /** A topic the matcher may answer: mentioned, and with its data present
      when it needs any. */
  predicate Available(said: Topic -> bool, hasData: bool, topic: Topic)
  {
    said(topic) && (hasData || !NeedsData(topic))
  }

  /** Reference definition: the position of the first available topic in
      `order` at or after `from`. */
  function FirstAvailableFrom(said: Topic -> bool, order: seq<Topic>, hasData: bool, from: nat): (r: Option<nat>)
    ensures r.Some? ==> from <= r.value < |order| && Available(said, hasData, order[r.value])
    ensures r.Some? ==> forall j :: from <= j < r.value ==> !Available(said, hasData, order[j])
    ensures r.None? ==> forall j :: from <= j < |order| ==> !Available(said, hasData, order[j])
    decreases |order| - from
  {
    if from >= |order| then None
    else if Available(said, hasData, order[from]) then Some(from)
    else FirstAvailableFrom(said, order, hasData, from + 1)
  }

  /** The first available topic of `order`, if any. */
  function FirstMentioned(said: Topic -> bool, order: seq<Topic>, hasData: bool): (r: Option<Topic>)
    ensures r.Some? ==> r.value in order && said(r.value) && (NeedsData(r.value) ==> hasData)
    ensures r.None? ==> forall i :: 0 <= i < |order| ==> !Available(said, hasData, order[i])
    ensures r.Some? ==> exists i :: (0 <= i < |order| && order[i] == r.value &&
      forall j :: 0 <= j < i ==> !Available(said, hasData, order[j]))
  {
    match FirstAvailableFrom(said, order, hasData, 0)
    case None => None
    case Some(i) => Some(order[i])
  }

  /** The matcher answers the first available topic of the priority order
      that the input mentions, and the default reply when there is none. */
  lemma MatchTopicIsFirstInPriority(said: Topic -> bool, hasData: bool)
    ensures MatchTopic(said, hasData) == FirstMentioned(said, Priority, hasData)
  {
    var h := hasData;
    assert FirstAvailableFrom(said, Priority, h, 6) == None;
    assert FirstAvailableFrom(said, Priority, h, 5)
      == if said(Humidity) && h then Some(5) else None;
    assert FirstAvailableFrom(said, Priority, h, 4)
      == if said(Wind) && h then Some(4) else FirstAvailableFrom(said, Priority, h, 5);
    assert FirstAvailableFrom(said, Priority, h, 3)
      == if said(Temperature) && h then Some(3) else FirstAvailableFrom(said, Priority, h, 4);
    assert FirstAvailableFrom(said, Priority, h, 2)
      == if said(Phenology) then Some(2) else FirstAvailableFrom(said, Priority, h, 3);
    assert FirstAvailableFrom(said, Priority, h, 1)
      == if said(Protection) then Some(1) else FirstAvailableFrom(said, Priority, h, 2);
    assert FirstAvailableFrom(said, Priority, h, 0)
      == if said(Symptoms) then Some(0) else FirstAvailableFrom(said, Priority, h, 1);
  }

  /** A reply request: a translation key and its replacements. */
  datatype Reply = Reply(key: string, reps: Replacements)

  function TopicKey(topic: Topic): string
  {
    match topic
    case Symptoms => "chatSymptoms"
    case Protection => "chatProtection"
    case Phenology => "chatPhenology"
    case Temperature => "chatTemperature"
    case Wind => "chatWind"
    case Humidity => "chatHumidity"
  }

  /** The reply the matcher chooses for the raw user input. */
  function ChatReply(input: string, ctx: Context): (r: Reply)
    ensures r.key in {"chatTemperature", "chatWind", "chatHumidity"} ==> HasData(ctx)
    ensures !HasData(ctx) ==> r.key in {"chatSymptoms", "chatProtection", "chatPhenology", "chatDefault"}
    ensures r.key == "chatDefault" <==> FirstMentioned(SaidIn(Lower(input)), Priority, HasData(ctx)).None?
    ensures r.key == match FirstMentioned(SaidIn(Lower(input)), Priority, HasData(ctx))
      case None => "chatDefault"
      case Some(topic) => TopicKey(topic)
    ensures r.key == "chatTemperature" ==>
      r.reps == [("city", ctx.city.value), ("temp", ctx.weather.value.temp), ("feels", ctx.weather.value.feels)]
    ensures r.key == "chatWind" ==> r.reps == [("wind", ctx.weather.value.wind)]
    ensures r.key == "chatHumidity" ==> r.reps == [("humidity", ctx.weather.value.humidity)]
    ensures r.key !in {"chatTemperature", "chatWind", "chatHumidity"} ==> r.reps == []
  {
    MatchTopicIsFirstInPriority(SaidIn(Lower(input)), HasData(ctx));
    match MatchTopic(SaidIn(Lower(input)), HasData(ctx))
    case None => Reply("chatDefault", [])
    case Some(topic) =>
      match topic
      case Temperature =>
        Reply("chatTemperature", [("city", ctx.city.value), ("temp", ctx.weather.value.temp), ("feels", ctx.weather.value.feels)])
      case Wind => Reply("chatWind", [("wind", ctx.weather.value.wind)])
      case Humidity => Reply("chatHumidity", [("humidity", ctx.weather.value.humidity)])
      case _ => Reply(TopicKey(topic), [])
  }

  /** Matching ignores case: the input and its lower-cased form get the
      same reply. */
  lemma ChatReplyIgnoresCase(input: string, ctx: Context)
    ensures ChatReply(Lower(input), ctx) == ChatReply(input, ctx)
  {
    LowerIdempotent(input);
  }

  /** `getGeminiChatResponse(userInput)`: the chosen reply translated
      through the memoised `t`. */
  function ChatResponse(tr: Translator, input: string, ctx: Context): (res: (string, Translator))
    ensures res.1.lang == tr.lang && res.1.tables == tr.tables
    ensures MemoSound(tr) ==> MemoSound(res.1)
    ensures MemoSound(tr) ==>
      res.0 == Translate(tr.tables, tr.lang, ChatReply(input, ctx).key, ChatReply(input, ctx).reps)
  {
    var reply := ChatReply(input, ctx);
    T(tr, reply.key, reply.reps)
  }

  /** `triggerInitialGeminiPrediction`: records the weather and location as
      the chat context and produces the prediction message of the index's
      risk tier. */
  function InitialPrediction(tr: Translator, index: real, weather: WeatherFacts, city: string)
    : (res: (string, Translator, Context))
    ensures res.2 == Context(Some(weather), Some(city))
    ensures res.1.lang == tr.lang && res.1.tables == tr.tables
    ensures MemoSound(tr) ==> MemoSound(res.1)
    ensures MemoSound(tr) ==> res.0 == Translate(tr.tables, tr.lang, Advice.PredictionKey(index), [("city", city), ("wind", weather.wind)])
  {
    var (text, tr') := T(tr, Advice.PredictionKey(index), [("city", city), ("wind", weather.wind)]);
    (text, tr', Context(Some(weather), Some(city)))
  }

  /** Before any prediction the chat only answers the three general topics
      or the default; afterwards a question about the wind (and nothing of
      higher priority) is answered with the wind reply. */
  lemma WindReplyNeedsPrediction(tr: Translator, index: real, weather: WeatherFacts, city: string, input: string)
    requires Mentions(Lower(input), Wind)
    requires !Mentions(Lower(input), Symptoms) && !Mentions(Lower(input), Protection)
    requires !Mentions(Lower(input), Phenology) && !Mentions(Lower(input), Temperature)
    ensures ChatReply(input, NoContext).key == "chatDefault"
    ensures ChatReply(input, InitialPrediction(tr, index, weather, city).2) == Reply("chatWind", [("wind", weather.wind)])
  {
  }
}

=== FILE: pollen.dfy ===
/** The heuristic pollen index (`calculatePollenIndex`): a clamped linear
    temperature score, a three-tier humidity score and a three-tier,
    non-monotone wind score, plus a jitter in [0, 1), capped at 10.
    The jitter, `Math.random()` in the source, is the parameter `u`. */
module Pollen {

  const TempBase: real := 10.0
  const TempDivisor: real := 5.0
  const HumidityLow: real := 40.0
  const HumidityMed: real := 70.0
  const WindLow: real := 5.0
  const WindHigh: real := 20.0
  const IndexCap: real := 10.0

  function Min(a: real, b: real): real { if a <= b then a else b }
  function Max(a: real, b: real): real { if a >= b then a else b }

  /** 0 up to 10 degrees, 3 from 25 degrees, linear in between. */
  function TemperatureScore(temp: real): (s: real)
    ensures 0.0 <= s <= 3.0
    ensures temp <= TempBase ==> s == 0.0
    ensures temp >= 25.0 ==> s == 3.0
    ensures TempBase <= temp <= 25.0 ==> s * TempDivisor == temp - TempBase
  {
    Max(0.0, Min(3.0, (temp - TempBase) / TempDivisor))
  }

  /** Dry air scores highest; both thresholds are strict `<`. */
  function HumidityScore(humidity: real): (s: real)
    ensures s == 1.0 || s == 2.0 || s == 3.0
    ensures s == 3.0 <==> humidity < HumidityLow
    ensures s == 2.0 <==> HumidityLow <= humidity < HumidityMed
    ensures s == 1.0 <==> humidity >= HumidityMed
  {
    if humidity < HumidityLow then 3.0
    else if humidity < HumidityMed then 2.0
    else 1.0
  }

  /** Calm air scores 1, a moderate breeze 3, strong wind 2. */
  function WindScore(wind: real): (s: real)
    ensures s == 1.0 || s == 2.0 || s == 3.0
    ensures s == 1.0 <==> wind < WindLow
    ensures s == 3.0 <==> WindLow <= wind < WindHigh
    ensures s == 2.0 <==> wind >= WindHigh
  {
    if wind < WindLow then 1.0
    else if wind < WindHigh then 3.0
    else 2.0
  }

  /** The weather part of the index, before the jitter. */
  function WeatherScore(temp: real, humidity: real, wind: real): (s: real)
    ensures 2.0 <= s <= 9.0
  {
    TemperatureScore(temp) + HumidityScore(humidity) + WindScore(wind)
  }

  /** `calculatePollenIndex(temp, humidity, wind)` with the random draw `u`.
      The cap at 10 never takes effect: the result is the score plus the
      jitter, and lies in [2, 10). */
  function PollenIndex(temp: real, humidity: real, wind: real, u: real): (r: real)
    requires 0.0 <= u < 1.0
    ensures 2.0 <= r < IndexCap
    ensures r - u == WeatherScore(temp, humidity, wind)
  {
    Min(TemperatureScore(temp) + HumidityScore(humidity) + WindScore(wind) + u, IndexCap)
  }

  /** Warmer never lowers the temperature score. */
  lemma TemperatureScoreMonotone(a: real, b: real)
    requires a <= b
    ensures TemperatureScore(a) <= TemperatureScore(b)
  {
  }

  /** More humid never raises the humidity score. */
  lemma HumidityScoreAntitone(a: real, b: real)
    requires a <= b
    ensures HumidityScore(a) >= HumidityScore(b)
  {
  }

  /** The wind score is not monotone: a breeze outscores both calm air and
      strong wind. */
  lemma WindScoreNotMonotone()
    ensures WindScore(0.0) < WindScore(WindLow)
    ensures WindScore(WindHigh) < WindScore(WindLow)
  {
  }

  /** The threshold values themselves fall in the upper tier. */
  lemma ThresholdsAreStrict()
    ensures HumidityScore(HumidityLow) == 2.0 && HumidityScore(HumidityMed) == 1.0
    ensures WindScore(WindLow) == 3.0 && WindScore(WindHigh) == 2.0
    ensures TemperatureScore(TempBase) == 0.0 && TemperatureScore(25.0) == 3.0
  {
  }

  /** For fixed weather the index grows strictly with the jitter. */
  lemma PollenIndexIncreasesWithJitter(temp: real, humidity: real, wind: real, u: real, v: real)
    requires 0.0 <= u < v < 1.0
    ensures PollenIndex(temp, humidity, wind, u) < PollenIndex(temp, humidity, wind, v)
  {
  }

  /** The lower end of [2, 10) is attained: calm, humid, cold air with a
      zero draw gives exactly 2. */
  lemma PollenIndexReachesTwo()
    ensures PollenIndex(0.0, HumidityMed, 0.0, 0.0) == 2.0
  {
  }

  /** The upper end of [2, 10) is approached: below any bound under 10 some
      draw lifts a warm, dry, breezy reading above it, so no smaller upper
      bound holds. */
  lemma PollenIndexApproachesCap(b: real)
    requires b < IndexCap
    ensures exists u :: 0.0 <= u < 1.0 && PollenIndex(25.0, 0.0, WindLow, u) > b
  {
    var u := (Max(b, 9.0) - 8.0) / 2.0;
    assert PollenIndex(25.0, 0.0, WindLow, u) == 9.0 + u;
  }
}

=== FILE: text.dfy ===
/** The few JavaScript string primitives the dashboard logic relies on:
    `indexOf`, `includes`, `replace` with a string pattern (first occurrence
    only) and `toLowerCase`, stated over `seq<char>`. */
module Text {
  import opened Wrappers

  /** `pat` occurs in `s` starting at position `i`. */
  predicate OccursAt(s: string, pat: string, i: nat)
  {
    i + |pat| <= |s| && s[i..i + |pat|] == pat
  }

  /** Position of the first occurrence of `pat` in `s` at or after `from`. */
  function IndexFrom(s: string, pat: string, from: nat): (r: Option<nat>)
    ensures r.Some? ==> from <= r.value && OccursAt(s, pat, r.value)
    ensures r.Some? ==> forall j :: from <= j < r.value ==> !OccursAt(s, pat, j)
    ensures r.None? ==> forall j :: from <= j ==> !OccursAt(s, pat, j)
    decreases |s| - from
  {
    if from + |pat| > |s| then None
    else if OccursAt(s, pat, from) then Some(from)
    else IndexFrom(s, pat, from + 1)
  }

  /** `String.prototype.indexOf`, with `None` standing for -1. */
  function IndexOf(s: string, pat: string): (r: Option<nat>)
    ensures r.Some? ==> OccursAt(s, pat, r.value)
    ensures r.Some? ==> forall j: nat :: j < r.value ==> !OccursAt(s, pat, j)
    ensures r.None? ==> forall j :: !OccursAt(s, pat, j)
  {
    IndexFrom(s, pat, 0)
  }

  /** `String.prototype.includes`. */
  predicate Contains(s: string, pat: string)
  {
    IndexOf(s, pat).Some?
  }

  /** `includes` holds exactly when the pattern occurs somewhere. */
  lemma ContainsIffOccurs(s: string, pat: string)
    ensures Contains(s, pat) <==> exists i :: OccursAt(s, pat, i)
  {
  }

  /** `s.replace(pat, rep)` with a string pattern: only the first occurrence
      is replaced; without an occurrence the string is returned unchanged. */
  function ReplaceFirst(s: string, pat: string, rep: string): (r: string)
    ensures IndexOf(s, pat).None? ==> r == s
    ensures IndexOf(s, pat).Some? ==>
      var i := IndexOf(s, pat).value;
      && |r| == |s| - |pat| + |rep|
      && r[..i] == s[..i]
      && OccursAt(r, rep, i)
      && r[i + |rep|..] == s[i + |pat|..]
  {
    match IndexOf(s, pat)
    case None => s
    case Some(i) => s[..i] + rep + s[i + |pat|..]
  }

  /** Only the first occurrence is consumed: an occurrence that starts after
      the first one ends is still there afterwards, shifted by the change in
      length. */
  lemma ReplaceFirstKeepsLaterOccurrence(s: string, pat: string, rep: string, j: nat)
    requires IndexOf(s, pat).Some?
    requires IndexOf(s, pat).value + |pat| <= j
    requires OccursAt(s, pat, j)
    ensures OccursAt(ReplaceFirst(s, pat, rep), pat, j - |pat| + |rep|)
  {
  }

  /** A string without `c` has no occurrence of any pattern containing `c`. */
  lemma AbsentCharNoOccurrence(s: string, pat: string, k: nat, c: char)
    requires c !in s
    requires k < |pat| && pat[k] == c
    ensures IndexOf(s, pat).None?
  {
  }

  /** The capital letters the model lower-cases: ASCII capitals and the
      Latin-1 capitals U+00C0..U+00DE except U+00D7, the multiplication sign. */
  predicate IsCapital(c: char)
  {
    'A' <= c <= 'Z' || ('\U{C0}' <= c <= '\U{DE}' && c != '\U{D7}')
  }

  /** `toLowerCase` on one character: a capital moves 32 code points up to its
      small letter; every other character is kept. */
  function LowerChar(c: char): (r: char)
    ensures !IsCapital(r)
    ensures !IsCapital(c) ==> r == c
    ensures IsCapital(c) ==> r as int == c as int + 32
  {
    if IsCapital(c) then (c as int + 32) as char else c
  }

  /** `toLowerCase`: no capital is left, and every other character stays
      where it was. */
  function Lower(s: string): (r: string)
    ensures |r| == |s|
    ensures forall i :: 0 <= i < |s| ==> !IsCapital(r[i])
    ensures forall i :: 0 <= i < |s| && !IsCapital(s[i]) ==> r[i] == s[i]
    ensures forall i :: 0 <= i < |s| && IsCapital(s[i]) ==> r[i] as int == s[i] as int + 32
  {
    seq(|s|, i requires 0 <= i < |s| => LowerChar(s[i]))
  }

  /** Lower-casing twice is lower-casing once. */
  lemma LowerIdempotent(s: string)
    ensures Lower(Lower(s)) == Lower(s)
  {
  }
}

=== FILE: translate.dfy ===
/** The translation function `t(key, replacements)` of script.js: a lookup in
    the string table of the current language that falls back to the key
    itself, `{name}` placeholder substitution, and the memo that is cleared
    when the language is toggled. The contents of the tables are opaque. */
module I18n {
  import opened Text

  datatype Lang = En | Pt

  /** The table name of a language (`currentLanguage`). */
  function Code(l: Lang): string
  {
    match l
    case En => "en"
    case Pt => "pt"
  }

  /** language code -> key -> template */
  type Tables = map<string, map<string, string>>

  /** Placeholder name and replacement value, in the order the caller's
      object literal lists them. Values are already formatted as text. */
  type Replacements = seq<(string, string)>

  function Placeholder(name: string): string
  {
    "{" + name + "}"
  }

  /** Substitutes each placeholder in turn, replacing only its first
      occurrence in the text produced so far. */
  function Fill(text: string, reps: Replacements): (r: string)
    ensures |reps| == 0 ==> r == text
    ensures '{' !in text ==> r == text
    ensures |reps| == 1 ==> r == ReplaceFirst(text, Placeholder(reps[0].0), reps[0].1)
    decreases |reps|
  {
    if |reps| == 0 then text
    else
      var p := Placeholder(reps[0].0);
      assert '{' !in text ==> IndexOf(text, p).None? by {
        if '{' !in text { AbsentCharNoOccurrence(text, p, 0, '{'); }
      }
      assert |reps| == 1 ==> reps[1..] == [];
      Fill(ReplaceFirst(text, p, reps[0].1), reps[1..])
  }

  /** The template for `key`: the table entry of the language when there is
      a non-empty one (JavaScript's `||` also skips an empty string),
      otherwise the key itself. */
  function Template(tables: Tables, lang: Lang, key: string): (r: string)
    ensures (Code(lang) !in tables || key !in tables[Code(lang)]) ==> r == key
    ensures Code(lang) in tables && key in tables[Code(lang)] && tables[Code(lang)][key] != "" ==>
      r == tables[Code(lang)][key]
    ensures Code(lang) in tables && key in tables[Code(lang)] && tables[Code(lang)][key] == "" ==> r == key
    ensures r != key ==> Code(lang) in tables && key in tables[Code(lang)] && r == tables[Code(lang)][key]
    ensures r == "" ==> key == ""
  {
    if Code(lang) in tables && key in tables[Code(lang)] && tables[Code(lang)][key] != "" then
      tables[Code(lang)][key]
    else
      key
  }

  /** The uncached translation. */
  function Translate(tables: Tables, lang: Lang, key: string, reps: Replacements): (r: string)
    ensures (Code(lang) !in tables || key !in tables[Code(lang)]) ==> r == Fill(key, reps)
    ensures Code(lang) in tables && key in tables[Code(lang)] && tables[Code(lang)][key] != "" ==>
      r == Fill(tables[Code(lang)][key], reps)
    ensures Code(lang) in tables && key in tables[Code(lang)] && tables[Code(lang)][key] == "" ==>
      r == Fill(key, reps)
    ensures '{' !in Template(tables, lang, key) ==> r == Template(tables, lang, key)
  {
    Fill(Template(tables, lang, key), reps)
  }

  /** The memo key: language, key and replacements (the source serialises
      these three into one string; the serialisation is taken as injective). */
  datatype MemoKey = MemoKey(lang: Lang, key: string, reps: Replacements)

  /** The translation state: the tables, the current language and the memo. */
  datatype Translator = Translator(tables: Tables, lang: Lang, memo: map<MemoKey, string>)

  /** Every memoised text is the uncached translation of its memo key. */
  ghost predicate MemoSound(tr: Translator)
  {
    forall k :: k in tr.memo ==> tr.memo[k] == Translate(tr.tables, k.lang, k.key, k.reps)
  }

  /** The translator at page load: English, empty memo. */
  function Initial(tables: Tables): (tr: Translator)
    ensures tr.lang == En && tr.memo == map[]
    ensures MemoSound(tr)
  {
    Translator(tables, En, map[])
  }

  /** `t(key, replacements)`: answers from the memo when it holds the key,
      otherwise translates and memoises. Returns the text and the new state. */
  function T(tr: Translator, key: string, reps: Replacements): (res: (string, Translator))
    ensures res.1.tables == tr.tables && res.1.lang == tr.lang
    ensures MemoKey(tr.lang, key, reps) in res.1.memo
    ensures res.1.memo[MemoKey(tr.lang, key, reps)] == res.0
    ensures MemoKey(tr.lang, key, reps) in tr.memo ==> res == (tr.memo[MemoKey(tr.lang, key, reps)], tr)
    ensures forall k :: k in tr.memo ==> k in res.1.memo && res.1.memo[k] == tr.memo[k]
    ensures res.1.memo.Keys == tr.memo.Keys + {MemoKey(tr.lang, key, reps)}
    ensures MemoSound(tr) ==> MemoSound(res.1) && res.0 == Translate(tr.tables, tr.lang, key, reps)
  {
    var mk := MemoKey(tr.lang, key, reps);
    if mk in tr.memo then
      (tr.memo[mk], tr)
    else
      var text := Translate(tr.tables, tr.lang, key, reps);
      (text, tr.(memo := tr.memo[mk := text]))
  }

  /** The language toggle: switches between English and Portuguese and
      clears the memo. */
  function Toggle(tr: Translator): (r: Translator)
    ensures r.lang != tr.lang
    ensures r.tables == tr.tables
    ensures r.memo == map[]
    ensures MemoSound(r)
  {
    Translator(tr.tables, if tr.lang == En then Pt else En, map[])
  }

  /** Two toggles restore the language (with an empty memo). */
  lemma ToggleTwice(tr: Translator)
    ensures Toggle(Toggle(tr)).lang == tr.lang
    ensures Toggle(Toggle(tr)).memo == map[]
  {
  }

  /** Because the memo key records the language, the memo stays sound under
      any change of language: the clearing on toggle frees memory but is not
      needed for correct answers. */
  lemma MemoSoundUnderAnyLanguage(tr: Translator, l: Lang)
    requires MemoSound(tr)
    ensures MemoSound(tr.(lang := l))
  {
  }

  /** A batch of `t` calls in order, threading the memo through. */
  function TranslateAll(tr: Translator, reqs: seq<(string, Replacements)>): (res: (seq<string>, Translator))
    ensures |res.0| == |reqs|
    ensures res.1.tables == tr.tables && res.1.lang == tr.lang
    ensures MemoSound(tr) ==> MemoSound(res.1)
    ensures MemoSound(tr) ==>
      forall i :: 0 <= i < |reqs| ==> res.0[i] == Translate(tr.tables, tr.lang, reqs[i].0, reqs[i].1)
    decreases |reqs|
  {
    if |reqs| == 0 then ([], tr)
    else
      var first := T(tr, reqs[0].0, reqs[0].1);
      var rest := TranslateAll(first.1, reqs[1..]);
      ([first.0] + rest.0, rest.1)
  }

  /** Substituting a concatenation of replacement lists is substituting the
      first list, then the second. */
  lemma {:induction false} FillAppend(text: string, a: Replacements, b: Replacements)
    ensures Fill(text, a + b) == Fill(Fill(text, a), b)
    decreases |a|
  {
    if |a| == 0 {
      assert a + b == b;
    } else {
      assert (a + b)[0] == a[0];
      assert (a + b)[1..] == a[1..] + b;
      FillAppend(ReplaceFirst(text, Placeholder(a[0].0), a[0].1), a[1..], b);
    }
  }

  /** A key the current language has no entry for translates to itself
      (when the key contains no placeholder). */
  lemma MissingKeyTranslatesToItself(tables: Tables, lang: Lang, key: string, reps: Replacements)
    requires Code(lang) !in tables || key !in tables[Code(lang)]
    requires '{' !in key
    ensures Translate(tables, lang, key, reps) == key
  {
  }

  /** A placeholder that occurs twice keeps its second occurrence: a single
      replacement touches only the first. */
  lemma FillReplacesFirstOnly(text: string, name: string, value: string, j: nat)
    requires IndexOf(text, Placeholder(name)).Some?
    requires IndexOf(text, Placeholder(name)).value + |Placeholder(name)| <= j
    requires OccursAt(text, Placeholder(name), j)
    ensures Contains(Fill(text, [(name, value)]), Placeholder(name))
  {
    var p := Placeholder(name);
    var once := ReplaceFirst(text, p, value);
    assert [(name, value)][1..] == [];
    assert Fill(text, [(name, value)]) == once;
    ReplaceFirstKeepsLaterOccurrence(text, p, value, j);
    ContainsIffOccurs(once, p);
  }
}

=== FILE: weather_cache.dfy ===
/** The per-coordinate weather cache of `updateSidebar` and its periodic
    sweep. The cache key (the coordinate rounded to four decimals) and the
    cached data are abstract; time is integer milliseconds (`Date.now()`),
    passed in explicitly. */
module WeatherCache {
  import opened Wrappers

  /** Ten minutes, in milliseconds. */
  const CacheDuration: nat := 10 * 60 * 1000

  datatype Entry<D> = Entry(data: D, timestamp: nat)

  /** Age of an entry at `now`; negative if the clock went backwards. */
  function Age<D>(e: Entry<D>, now: nat): int
  {
    now - e.timestamp
  }

  /** The hit test uses strict `<`. */
  predicate Servable<D>(e: Entry<D>, now: nat)
  {
    Age(e, now) < CacheDuration
  }

  /** The sweep test uses strict `>`. */
  predicate Expired<D>(e: Entry<D>, now: nat)
  {
    Age(e, now) > CacheDuration
  }

  /** The cached data for `k` when there is an entry young enough to serve. */
  function Lookup<K(!new), D>(cache: map<K, Entry<D>>, k: K, now: nat): (r: Option<D>)
    ensures r.Some? <==> k in cache && now < cache[k].timestamp + CacheDuration
    ensures r.Some? ==> r.value == cache[k].data
  {
    if k in cache && Servable(cache[k], now) then Some(cache[k].data) else None
  }

  /** Records freshly fetched data under `k`, stamped with the completion
      time; every other key keeps its entry. */
  function Store<K(!new), D>(cache: map<K, Entry<D>>, k: K, data: D, now: nat): (r: map<K, Entry<D>>)
    ensures r.Keys == cache.Keys + {k}
    ensures r[k] == Entry(data, now)
    ensures forall k' :: k' in cache && k' != k ==> r[k'] == cache[k']
  {
    cache[k := Entry(data, now)]
  }


  /** How the two concurrent fetches of a lookup ended: both responses
      decoded, some fetch or decoding failed, or the lookup was superseded. */
  datatype Fetch<D> = Fetched(data: D) | Failed | Aborted

  /** What the sidebar shows after a lookup. */
  datatype View<D> =
    | FromCache(data: D)    // served and rendered without any fetch
    | CacheRenderThrew(data: D) // served without any fetch, but rendering
                            // threw outside any handler
    | FromNetwork(data: D)  // fetched, stored and rendered
    | LoadError             // the `locationError` message
    | Unchanged             // a superseded lookup ends silently

  /** The view of data served from the cache: rendering happens outside the
      `try`, so a rendering failure escapes. */
  function CachedView<D>(d: D, renders: D -> bool): View<D>
  {
    if renders(d) then FromCache(d) else CacheRenderThrew(d)
  }

  /** One `updateSidebar` call for key `k` issued at `now`. On a miss the
      fetch ends with `fetch`, at time `doneAt`; on a hit no fetch is made and
      `fetch` plays no part. `renders(d)` says whether rendering `d` completes
      (it throws, for instance, on a reverse-geocoding answer without an
      address). Fetched data is stored before it is rendered, so data whose
      rendering fails inside the `try` is stored and reported as an error. */
  function Visit<K(!new), D>(cache: map<K, Entry<D>>, k: K, now: nat, fetch: Fetch<D>, doneAt: nat,
                             renders: D -> bool)
    : (res: (View<D>, map<K, Entry<D>>))
    ensures (res.0.FromCache? || res.0.CacheRenderThrew?) <==> Lookup(cache, k, now).Some?
    ensures Lookup(cache, k, now).Some? ==>
      res.0.data == cache[k].data && res.1 == cache
    ensures res.0.FromCache? <==> Lookup(cache, k, now).Some? && renders(cache[k].data)
    ensures Lookup(cache, k, now).None? ==>
      match fetch
      case Fetched(d) =>
        && res.1 == Store(cache, k, d, doneAt)
        && (res.0 == FromNetwork(d) <==> renders(d))
        && (res.0 == LoadError <==> !renders(d))
      case Failed => res == (LoadError, cache)
      case Aborted => res == (Unchanged, cache)
    ensures res.1 != cache ==> fetch.Fetched? && k in res.1 && res.1[k] == Entry(fetch.data, doneAt)
    ensures forall k' :: k' != k ==> (k' in res.1 <==> k' in cache)
    ensures forall k' :: k' != k && k' in cache ==> res.1[k'] == cache[k']
  {
    match Lookup(cache, k, now)
    case Some(d) => (CachedView(d, renders), cache)
    case None =>
      match fetch
      case Fetched(d) => (if renders(d) then FromNetwork(d) else LoadError, Store(cache, k, d, doneAt))
      case Failed => (LoadError, cache)
      case Aborted => (Unchanged, cache)
  }

  /** An error view does not mean an untouched cache: data that fails to
      render is stored, and every hit on it within the window throws again
      instead of fetching anew. */
  lemma UnrenderableDataStaysCached<K(!new), D>(cache: map<K, Entry<D>>, k: K, now: nat, d: D, doneAt: nat,
                                               again: nat, fetch2: Fetch<D>, doneAt2: nat, renders: D -> bool)
    requires Lookup(cache, k, now).None?
    requires !renders(d)
    requires doneAt <= again < doneAt + CacheDuration
    ensures var (v1, c1) := Visit(cache, k, now, Fetched(d), doneAt, renders);
      && v1 == LoadError
      && k in c1 && c1[k] == Entry(d, doneAt)
      && Visit(c1, k, again, fetch2, doneAt2, renders) == (CacheRenderThrew(d), c1)
  {
  }

  /** The reference meaning of a sweep: keep exactly the entries that have
      not expired. */
  function Sweep<K(!new), D>(cache: map<K, Entry<D>>, now: nat): (r: map<K, Entry<D>>)
    ensures forall k :: k in r <==> k in cache && !Expired(cache[k], now)
    ensures forall k :: k in r ==> r[k] == cache[k]
  {
    map k | k in cache && !Expired(cache[k], now) :: cache[k]
  }

  /** The sweep as the source performs it: visit every entry and delete the
      expired ones. */
  method SweepEntries<K(!new), D>(cache: map<K, Entry<D>>, now: nat) returns (r: map<K, Entry<D>>)
    ensures r == Sweep(cache, now)
  {
    r := cache;
    var todo := cache.Keys;
    while todo != {}
      invariant todo <= cache.Keys
      invariant r.Keys <= cache.Keys
      invariant forall k :: k in r ==> r[k] == cache[k]
      invariant forall k :: k in todo ==> k in r
      invariant forall k :: k in cache && k !in todo ==> (k in r <==> !Expired(cache[k], now))
      decreases todo
    {
      var k :| k in todo;
      if Expired(r[k], now) {
        r := r - {k};
      }
      todo := todo - {k};
    }
    assert r.Keys == Sweep(cache, now).Keys;
  }

  /** Sweeping twice at the same time is sweeping once. */
  lemma SweepIdempotent<K(!new), D>(cache: map<K, Entry<D>>, now: nat)
    ensures Sweep(Sweep(cache, now), now) == Sweep(cache, now)
  {
  }

  /** The sweep never changes what a lookup at the same or a later time
      answers: whatever it drops could not have been served any more. */
  lemma SweepUnobservable<K(!new), D>(cache: map<K, Entry<D>>, now: nat, later: nat, k: K)
    requires now <= later
    ensures Lookup(Sweep(cache, now), k, later) == Lookup(cache, k, later)
  {
  }

  /** An entry exactly `CacheDuration` old is neither served nor swept. */
  lemma BoundaryAgeNeitherServedNorSwept<K(!new), D>(cache: map<K, Entry<D>>, k: K, now: nat)
    requires k in cache && Age(cache[k], now) == CacheDuration
    ensures Lookup(cache, k, now).None?
    ensures k in Sweep(cache, now)
  {
  }

  /** After a successful fetch, the same key is served from the cache, with
      no new fetch, until `CacheDuration` has passed since the data arrived,
      and fetched again from then on. */
  lemma OneFetchPerWindow<K(!new), D>(cache: map<K, Entry<D>>, k: K, now: nat, d: D, doneAt: nat,
                                      again: nat, fetch2: Fetch<D>, doneAt2: nat, renders: D -> bool)
    requires Lookup(cache, k, now).None?
    requires doneAt <= again
    ensures var (v1, c1) := Visit(cache, k, now, Fetched(d), doneAt, renders);
      && (renders(d) ==> v1 == FromNetwork(d))
      && (again < doneAt + CacheDuration ==>
            Visit(c1, k, again, fetch2, doneAt2, renders) == (CachedView(d, renders), c1))
      && (again >= doneAt + CacheDuration ==> Lookup(c1, k, again).None?)
  {
  }

  /** An entry older than `CacheDuration` is gone after the next sweep even
      without any lookup in between. */
  lemma StaleEntryGoneAfterSweep<K(!new), D>(cache: map<K, Entry<D>>, k: K, now: nat)
    requires k in cache && now > cache[k].timestamp + CacheDuration
    ensures k !in Sweep(cache, now)
  {
  }
}

=== FILE: weather_codes.dfy ===
/** `getWeatherInfoFromCode`: the weather code reported by the weather
    provider is mapped to a condition key (a translation key) and an icon,
    with a fallback for codes outside the table. */
module WeatherCodes {
  import opened I18n

  /** weather code -> condition key */
  const ConditionKeys: map<int, string> := map[
    0 := "clearSky", 1 := "partlyCloudy", 2 := "partlyCloudy", 3 := "cloudy",
    45 := "fog", 61 := "lightRain", 63 := "moderateRain", 65 := "heavyRain",
    95 := "thunderstorm"]

  const Unknown: string := "unknownCondition"

  /** condition key -> icon class */
  const Icons: map<string, string> := map[
    "clearSky" := "fa-sun", "partlyCloudy" := "fa-cloud-sun", "cloudy" := "fa-cloud",
    "fog" := "fa-smog", "lightRain" := "fa-cloud-rain",
    "moderateRain" := "fa-cloud-showers-heavy", "heavyRain" := "fa-cloud-showers-heavy",
    "thunderstorm" := "fa-bolt", "unknownCondition" := "fa-question-circle"]

  /** The table knows exactly nine codes. */
  lemma KnownCodesAreTheTable()
    ensures ConditionKeys.Keys == {0, 1, 2, 3, 45, 61, 63, 65, 95}
  {
  }

  /** The condition key of a code; unknown codes get `unknownCondition`.
      Every key produced has an icon. */
  function ConditionKey(code: int): (key: string)
    ensures key in Icons
    ensures key == Unknown <==> code !in ConditionKeys
  {
    if code in ConditionKeys then ConditionKeys[code] else Unknown
  }

  /** The icon is the question mark exactly for codes outside the table. */
  function IconOf(code: int): (icon: string)
    ensures icon == "fa-question-circle" <==> code !in ConditionKeys
  {
    Icons[ConditionKey(code)]
  }

  datatype WeatherInfo = WeatherInfo(text: string, icon: string)

  /** `getWeatherInfoFromCode(code)`: the translated condition label (through
      the memoised `t`) and its icon. */
  function GetWeatherInfo(tr: Translator, code: int): (res: (WeatherInfo, Translator))
    ensures res.0.icon == "fa-question-circle" <==> code !in ConditionKeys
    ensures res.1.lang == tr.lang && res.1.tables == tr.tables
    ensures MemoSound(tr) ==> MemoSound(res.1)
    ensures MemoSound(tr) ==> res.0.text == Translate(tr.tables, tr.lang, ConditionKey(code), [])
  {
    var (text, tr') := T(tr, ConditionKey(code), []);
    (WeatherInfo(text, IconOf(code)), tr')
  }

  /** Codes 1 and 2 share a label; rain codes 63 and 65 share an icon. */
  lemma SharedLabelsAndIcons()
    ensures ConditionKey(1) == ConditionKey(2)
    ensures ConditionKey(63) != ConditionKey(65) && IconOf(63) == IconOf(65)
  {
  }
}

=== FILE: wrappers.dfy ===
/** Optional value, used wherever the source reads a value
    that may be absent (`undefined`, a missing map entry, a cache miss). */
module Wrappers {

  datatype Option<+T> = None | Some(value: T)
}
